=== FILE: README.md ===
# geo-game progression engine, in Dafny

A model of the game logic of the geo-game renderer (`renderer.js`): a location
trivia game in which the player walks towards points of interest (markers), the
nearest open marker is the target, a quiz opens within 30 metres of it, and a
correct answer completes it.

All of the game's state lives in a handful of globals (`markersData`,
`completedMarkers`, `currentTargetIndex`, `lastDistance`, plus the question
panel and the status line). Here they form one immutable `Game.GameState`, and
every handler is a pure function from state to state. The completed and
remaining counters on the page are part of the state, because the code
rewrites them only at certain points and they can go stale:

- `wrappers.dfy` — `Option`, standing in for `null`.
- `markers.dfy` — markers, questions, coordinates; the distance function is a
  parameter (`DistanceFn`), not the haversine formula.
- `progress.dfy` — `completedMarkers`: the no-duplicate push of `completeMarker`,
  the filter of open markers, and the counting argument behind `updateStats`.
- `resolver.dfy` — target resolution of `findClosestMarker`: filter, stable sort
  by distance, head, and the recovery of the head's index by its coordinates
  (see Findings).
- `trend.dfy` — the approaching / retreating / same-distance feedback.
- `quiz.dfy` — the random question choice, the answer list, the shuffle and
  grading.
- `game.dfy` — the state, the handlers (`Load`, `FindClosestMarker`,
  `ShowQuestionPanel`, `SelectAnswer`, `SubmitAnswer`, `CompleteMarker`,
  `UpdateStats`), the invariants, and runs of events. `Step` and `Run` follow
  the code as written; `StepCorrected` and `RunCorrected` apply the two
  corrections listed under Findings.
- `walkthrough.dfy` — a two-marker game played through the handlers: a wrong
  answer, then a correct one, then the next target.

Randomness is an input: a question draw is a `RandomDraw` in [0, 1) and the
shuffle is driven by a sequence of choices; `Quiz.ShuffleReaches` shows that
these choices produce exactly the permutations of the answer list, so the model
covers every outcome of the random sort. Distances are exact `real` kilometres.

The head of `markersWithDistances.sort(...)` is, because `Array.prototype.sort`
is stable, the first open marker (in index order) of least distance;
`Resolver.IsFirstClosest` states that choice independently of how it is
computed.

## Model

| member | source | states |
|---|---|---|
| Markers.Distances | renderer.js:124-130 | One distance per marker, in the markers' order, each the distance from the player to that marker's coordinates |
| Progress.MarkComplete | renderer.js:291-292 | The completed list keeps its order and only gains at the end; afterwards it holds exactly the old indices plus the target (when the target is not -1); a target that is -1 or already recorded changes nothing, so a repeat is a no-op; no index is ever recorded twice |
| Progress.AvailableIndices | renderer.js:116 | The open markers are exactly the indices below the marker count that are not completed, each once, in increasing order |
| Progress.CountsAddUp | renderer.js:312-315 | With no duplicate and no stray index, completed count plus open markers equals the marker count, the completed count never exceeds it, and it equals it exactly when every marker is completed |
| Resolver.ClosestPos | renderer.js:133-135 | The head of the stable sort: an element of least distance, strictly nearer than every element before it |
| Resolver.ClosestIsFirstClosest | renderer.js:124-135 | The head of the sorted open markers is the first closest open marker, and no other marker is |
| Resolver.ResolveTarget | renderer.js:116-135 | No head exactly when every marker is completed; otherwise the head is marker i exactly when i is open, no farther than any open marker, and strictly nearer than every open marker with a lower index (ties go to the lower index) |
| Resolver.IndexByCoords | renderer.js:136-138 | `findIndex` by latitude and longitude: the first marker at that place, and -1 exactly when no marker is there |
| Resolver.ResolveAsWritten | renderer.js:116-138 | The index the code recovers is present exactly when some marker is open, and is the first marker at the place of the head of the sorted open markers: at that place, never after the head, and with no marker before it at that place |
| Resolver.AsWrittenAgreesWhenDistinct | renderer.js:136-138 | When no two markers share coordinates, the recovery by coordinates gives the head of the sorted open markers itself |
| Resolver.DuplicateCoordsRetargetCompleted | renderer.js:136-138 | Two markers at one place (titles and questions may differ), the first completed: the head is marker 1 but the recovered index is completed marker 0, whose completion records nothing, so marker 1 stays open |
| Trend.NextDirection | renderer.js:196-207 | Without a previous distance the feedback is left as it was; otherwise it is approaching iff the distance fell, retreating iff it rose, same iff it is equal |
| Quiz.QuestionIndex | renderer.js:236 | The drawn question index is a valid index: the floor of draw times the question count |
| Quiz.QuestionIndexReaches | renderer.js:236 | Every question index is drawn by some value in [0, 1) |
| Quiz.AnswerList | renderer.js:240-242 | The unshuffled list has one entry per answer: the correct answer first, flagged correct, then every wrong answer in file order, flagged wrong |
| Quiz.Shuffle | renderer.js:243 | The shuffled list is a permutation of the input: same length and same multiset |
| Quiz.ShuffleReaches | renderer.js:243 | Every permutation of the input is the outcome of some random choices |
| Quiz.BuildAnswers | renderer.js:240-243 | One button per answer; the button texts are a permutation of the correct answer and all wrong answers; exactly one button is flagged correct and it carries the correct answer; every other button carries a wrong answer |
| Quiz.AnyOrderPossible | renderer.js:240-243 | Any order of the answer list can come out of the shuffle |
| Quiz.Grade | renderer.js:275-278 | No grade exactly when no button is selected; otherwise the grade is the selected button's correct flag |
| Quiz.GradeOfBuiltQuiz | renderer.js:240-243 | On a freshly built quiz a selection grades correct exactly when it is the button with the correct answer flagged correct, and then every other button is flagged wrong |
| Game.Initial | renderer.js:5-11 | The page starts with no markers, nothing completed, no target and no counters written, and every invariant holds |
| Game.UpdateStatsCountsOpen | renderer.js:312-315 | With no duplicate and no stray completed index, the remaining count is never negative, equals the number of markers the target search can still choose, and is zero exactly when all are completed |
| Game.Load | renderer.js:35-90 | A cancelled dialog changes nothing and a failure only sets the status; parsed data (no markers field reads as none) replaces the markers and resets progress to nothing completed and no target; a file with markers writes the counters as 0 completed and all remaining, while a file without markers leaves the old counters; last distance and quiz panel are kept |
| Game.StaleCountersAfterEmptyLoad | renderer.js:47-52 | After progress has been made, loading a file without markers leaves counters that show completed markers and no longer add up to the markers loaded |
| Game.LoadCorrected | renderer.js:35-90 | Every parsed file rewrites the counters, so after a load they always show 0 completed and the loaded marker count remaining, and they stay current |
| Game.UpdateTargetDistance | renderer.js:191-209 | The last distance becomes the new one; the trend is compared with the previous distance (unchanged when there was none); nothing else changes |
| Game.NearingReadsApproaching | renderer.js:191-209 | Two or more successive readings, each below the one before, leave the line reading approaching, whatever it showed and whatever distance was remembered before |
| Game.CompleteMarker | renderer.js:290-309 | The target is appended to the completed markers only if it is a real index not recorded yet, and only then are the counters rewritten (to the current counts); otherwise progress and counters are untouched; target, last distance and trend are cleared and the panel closes; every invariant is kept |
| Game.CompleteMarkerIdempotent | renderer.js:290-309 | Completing twice is the same as completing once |
| Game.ShowQuestionPanel | renderer.js:229-258 | A target without questions is completed at once; otherwise a quiz on one of its questions opens, with a shuffled complete answer list, one correct button and no selection, and progress, target and counters untouched |
| Game.ApproachTarget | renderer.js:140-151 | The chosen marker becomes the target with the given distance recorded and the trend compared with the previous distance; beyond 30 metres nothing else changes; within 30 metres the marker is reached: completed, with target and distance memory cleared, if it has no questions, and otherwise a quiz opened with the distance and trend kept as recorded; an open chosen marker leaves an open target |
| Game.FindClosestMarker | renderer.js:112-152 | As written: no markers, nothing changes; all completed, only the status changes; otherwise, for the head i of the sorted open markers, the target becomes the first marker at i's coordinates (i itself or an earlier one), i's distance becomes the last distance and sets the trend, and within 30 metres that target is reached (a target with a quiz keeps that distance and trend, one without questions is completed and clears them); the completed list only grows and the invariant `Valid` is kept |
| Game.FindClosestMarkerCorrected | renderer.js:112-152 | The same update with the head of the sorted open markers itself as the target, so the target is never a completed marker |
| Game.FindAgreesWhenDistinct | renderer.js:136-142 | When no two markers share coordinates, the update as written equals the corrected one |
| Game.DuplicateCoordsTargetCompleted | renderer.js:136-150 | Two markers at one place (titles and questions may differ), the first completed and with questions: the update targets completed marker 0, and the completion that a correct answer triggers records nothing |
| Game.ReachTrap | renderer.js:136-150 | Two markers at one place (titles and questions may differ), none completed: within 30 metres the update targets marker 0, and completing it leaves marker 1 as the only open marker, sharing its place with marker 0, and no target |
| Game.PositionTrap | renderer.js:136-152 | In any file where every marker but b is completed and an earlier marker shares b's coordinates: a position update finds b as the head, targets the first marker at its place, which is completed, and changes no progress, so the state stays so |
| Game.StepTrap | renderer.js:274-309 | In that state no handler other than a file load (position update, click, submit) changes the markers or the progress, or gets out of it |
| Game.DuplicateTrapForever | renderer.js:136-152 | Once the only open marker shares its coordinates with an earlier marker, along any series of events without a file load the markers and the completed list never change, so that marker and the game are never completed |
| Game.SelectAnswer | renderer.js:262-271 | The chosen button becomes the one a submit grades; the buttons and their order are untouched |
| Game.SubmitAnswer | renderer.js:274-287 | No selection: nothing changes; a correct button completes the target; a wrong one closes the panel and leaves progress, target, counters and the buttons in their order as they were |
| Game.Step | renderer.js:318-322 | Every event handler keeps `Valid` (distinct completed markers that exist, a target that is -1 or a loaded marker, current counters while markers are loaded), and every handler other than a file load keeps the markers and only extends the completed list |
| Game.StepKeepsTargetOpen | renderer.js:136-142 | With markers at distinct coordinates (and a load bringing such markers), no handler makes a completed marker the target |
| Game.RunKeepsValid | renderer.js:289-315 | Along any series of events, whenever markers are loaded the counters on the page are written, add up to the marker count, and show as remaining exactly the number of open markers |
| Game.RunKeepsTargetOpen | renderer.js:136-142 | Along any series of events whose loads bring markers at distinct coordinates, the target is never a completed marker |
| Game.ProgressOnlyGrows | renderer.js:290-292 | Between file loads the markers stay the same and completed markers are never lost |
| Game.StepCorrected | renderer.js:318-322 | With both corrections, every handler keeps `Valid`, keeps the target open, and keeps the counters current |
| Game.RunCorrectedKeepsSound | renderer.js:35-152 | With both corrections, along any series of events and whatever the files contain, the target is never a completed marker and the counters, once written, always show the current progress |
| Walkthrough.FirstVisitWrongAnswer | renderer.js:140-150 | Two markers 1 km apart, nothing completed, the player on the first: its quiz opens; a wrong answer closes it with that marker still the target and nothing completed |
| Walkthrough.NextVisitRightAnswer | renderer.js:274-309 | On the next update the quiz on the first marker reopens; a correct answer completes it and writes the counters as 1 completed and 1 remaining, and the following update targets the second marker |

## Findings

| source | as written | input that shows it | evidently intended | confidence | as-written member | corrected member |
|---|---|---|---|---|---|---|
| renderer.js:136-142 | The target's index is recovered as the first marker with the same latitude and longitude as the closest open marker | Two markers at identical coordinates (their titles and questions may differ), the first already completed: the target becomes completed marker 0, its quiz is shown, a correct answer records nothing, and marker 1 can never be completed; in any file, once the only open marker shares its coordinates with an earlier one, it can never be completed | The index of the closest open marker itself, taken from the filter | high (not executed) | Game.FindClosestMarker, Game.DuplicateTrapForever | Game.FindClosestMarkerCorrected, Game.RunCorrectedKeepsSound |
| renderer.js:47-52 | Only a file with markers calls `startGame`, the one place besides `completeMarker` that calls `updateStats` | Complete a marker of a loaded file, then load a file without markers: the counters still show one completed and the old remaining count, for zero markers | Every load resets the counters shown to the file just loaded | medium (not executed) | Game.Load, Game.StaleCountersAfterEmptyLoad | Game.LoadCorrected, Game.RunCorrectedKeepsSound |

`Step` and `Run` model the code as written; `Game.RunKeepsTargetOpen` shows
that the first finding cannot arise while every file has markers at distinct
coordinates, and `Game.RunKeepsValid` that the counters are current whenever
markers are loaded. `StepCorrected` and `RunCorrected` use the corrected
members.

## Behaviour worth noting

- A question is drawn at random each time the panel opens.
- The quiz is rebuilt, with a new question draw and a new shuffle, on every
  position update within 30 metres, including while it is open and after a
  wrong answer.
- A wrong answer hides the panel but does not clear the selected button.
- `lastDistance` is reset only when a marker is completed, not when the target
  changes or a file loads, so the first trend after such a change compares
  distances to different markers.
- The "all complete" status is set again on every position update.

## Left out

- `calculateDistance` (haversine, Earth radius 6371 km): distance is a parameter `DistanceFn`, because it is floating-point trigonometry.
- Floating point: distances and coordinates are exact reals; NaN and rounding are not modelled.
- Map and DOM presentation (`initMap`, `updatePlayerPosition`, `setTargetMarker`'s icon and path, `drawPath`, target name, distance in metres, colours, button enabling): presentation only.
- Game.FindClosestMarker: the redraw of the target marker and path when the target changes is not modelled; only the resulting target index is.
- Game.SubmitAnswer: the hidden panel and the disabled submit button that keep the UI from calling it are not modelled, since the handler itself does not check them.
- The geolocation watch set up by `startGame`, and its error callback: asynchronous I/O; a position update is the `Position` event, and the error callback only sets a status line. The `updateStats` call at the end of `startGame` is part of `Game.Load`.
- The `!playerPosition` guard of `findClosestMarker`: the position is always set before it is called.
- File selection, fetch and JSON parsing in `loadJsonFile`: asynchronous I/O; their result is the `LoadOutcome` input, and the file's `name` shown in the status is not kept.
- Malformed marker records (a missing `wrongAnswers` makes the handler throw): markers are given as well-formed data; a missing `questions` list reads as empty.
- `Math.random`: modelled as an input draw and as shuffle choices, not as a generator.
- `main.js` and `preload.js`: Electron window, IPC and file-dialog plumbing with no game logic.

=== FILE: game.dfy ===
/**
 * The game state held in the renderer's globals, and the handlers that change it:
 * loading a file, a position update, selecting and submitting an answer, and
 * completing a marker.
 */
module Game {

  import opened Wrappers
  import opened Markers
  import opened Progress
  import opened Resolver
  import opened Trend
  import opened Quiz

  /** The quiz opens within 30 metres of the target. */
  const ProximityKm: real := 0.03

  /** The `gameStatus` line, as far as the modelled handlers set it. */
  datatype Status =
    | Idle            // before any file is loaded
    | Searching       // a file with points was loaded; waiting for positions
    | NoPoints        // the loaded file has no points
    | LoadFailed      // picking, fetching or parsing the file failed
    | AllComplete     // a position update found no open marker
    | Answering       // the question panel was opened
    | CorrectAnswer
    | WrongAnswer

  /** The `completed-count` and `remaining-count` texts. */
  datatype Counts = Counts(completed: int, remaining: int)

  datatype GameState = GameState(
    markers: seq<Marker>,        // markersData
    completed: seq<nat>,         // completedMarkers, in completion order
    target: int,                 // currentTargetIndex; -1 when there is none
    lastDistance: Option<real>,  // lastDistance; None for null
    direction: Direction,        // the approach/retreat line
    quiz: Option<QuizPanel>,     // the question and answer buttons last rendered
    panelOpen: bool,             // whether the question panel is shown
    status: Status,
    counters: Option<Counts>)    // the counters on the page; None until first written

  /** The random numbers one position update may consume. */
  datatype Draws = Draws(question: RandomDraw, shuffle: seq<nat>)

  /** `updateStats`: the completed count and the remaining count, from the globals. */
  function UpdateStats(s: GameState): Counts
  {
    Counts(|s.completed|, |s.markers| - |s.completed|)
  }

  /**
   * With no duplicate and no stray index in the completed list, the remaining
   * count is never negative, it is the number of markers the target search can
   * still choose, and it is zero exactly when every marker is completed.
   */
  lemma UpdateStatsCountsOpen(s: GameState)
    requires NoDuplicates(s.completed) && AllBelow(s.completed, |s.markers|)
    ensures var c := UpdateStats(s);
      && c.completed == |s.completed|
      && 0 <= c.remaining == |AvailableIndices(|s.markers|, s.completed)|
      && (c.remaining == 0 <==> AllCompleted(|s.markers|, s.completed))
  {
    CountsAddUp(|s.markers|, s.completed);
  }

  /** The counters on the page describe the current globals. */
  predicate CountersCurrent(s: GameState)
  {
    s.counters.None? || s.counters == Some(UpdateStats(s))
  }

  /**
   * What the handlers keep true whatever the data: completed markers are
   * distinct loaded markers, the target is -1 or a loaded marker, and while
   * markers are loaded the counters on the page are current.
   */
  predicate Valid(s: GameState)
  {
    && NoDuplicates(s.completed)
    && AllBelow(s.completed, |s.markers|)
    && (s.target == -1 || 0 <= s.target < |s.markers|)
    && (|s.markers| > 0 ==> s.counters == Some(UpdateStats(s)))
  }

  /** The target, when there is one, is a marker not completed yet. */
  predicate TargetOpen(s: GameState)
  {
    s.target == -1 || s.target !in s.completed
  }

  /** The globals as the page starts. */
  function Initial(): (s: GameState)
    ensures Valid(s) && TargetOpen(s) && CountersCurrent(s)
    ensures s.markers == [] && s.completed == [] && s.target == -1
  {
    GameState([], [], -1, None, NoReading, None, false, Idle, None)
  }

  /** How the file load ended: the dialog was cancelled, an error was raised, or data arrived. */
  datatype LoadOutcome =
    | Cancelled
    | Failed
    | Parsed(markers: Option<seq<Marker>>)  // None when the document has no `markers` field

  /**
   * The state changes of `loadJsonFile`: on parsed data the markers are replaced
   * and progress and target are reset; the last distance and the quiz panel are
   * left as they were. Only a file with markers starts the game and so rewrites
   * the counters; after a file without markers they keep their old values.
   */
  function Load(s: GameState, outcome: LoadOutcome): (r: GameState)
    ensures outcome.Cancelled? ==> r == s
    ensures outcome.Failed? ==> r == s.(status := LoadFailed)
    ensures outcome.Parsed? ==>
      && r.markers == (if outcome.markers.Some? then outcome.markers.value else [])
      && r.completed == [] && r.target == -1
      && Valid(r) && TargetOpen(r)
      && (r.status == NoPoints <==> |r.markers| == 0)
      && (|r.markers| > 0 ==> r.counters == Some(Counts(0, |r.markers|)))
      && (|r.markers| == 0 ==> r.counters == s.counters)
      && r.lastDistance == s.lastDistance && r.quiz == s.quiz && r.panelOpen == s.panelOpen
    ensures Valid(s) ==> Valid(r)
    ensures TargetOpen(s) ==> TargetOpen(r)
  {
    match outcome
    case Cancelled => s
    case Failed => s.(status := LoadFailed)
    case Parsed(ms) =>
      var markers := if ms.Some? then ms.value else [];
      var r := s.(markers := markers, completed := [], target := -1,
                  status := if |markers| > 0 then Searching else NoPoints);
      if |markers| > 0 then r.(counters := Some(UpdateStats(r))) else r
  }

  /**
   * After progress has been made, loading a file without markers leaves the old
   * counters on the page: they still show completed markers, and they no longer
   * add up to the (zero) markers loaded.
   */
  lemma StaleCountersAfterEmptyLoad(s: GameState, outcome: LoadOutcome)
    requires Valid(s) && |s.completed| > 0
    requires outcome == Parsed(None) || outcome == Parsed(Some([]))
    ensures var r := Load(s, outcome);
      && r.markers == [] && r.completed == []
      && r.counters == Some(Counts(|s.completed|, |s.markers| - |s.completed|))
      && r.counters != Some(UpdateStats(r))
      && r.counters.value.completed + r.counters.value.remaining != |r.markers|
  {
    assert s.completed[0] < |s.markers|;
  }

  /**
   * The load as evidently intended: every parsed file rewrites the counters, so
   * after any load they describe the file just loaded.
   */
  function LoadCorrected(s: GameState, outcome: LoadOutcome): (r: GameState)
    ensures outcome.Parsed? ==> r.counters == Some(Counts(0, |r.markers|))
    ensures outcome.Parsed? ==> CountersCurrent(r)
    ensures r == Load(s, outcome).(counters := r.counters)
    ensures Valid(s) ==> Valid(r)
    ensures CountersCurrent(s) ==> CountersCurrent(r)
  {
    var r := Load(s, outcome);
    if outcome.Parsed? then r.(counters := Some(UpdateStats(r))) else r
  }

  /**
   * `updateTargetDistance`: records `d` as the last distance and updates the
   * approach/retreat line against the previous one; nothing else changes.
   */
  function UpdateTargetDistance(s: GameState, d: real): (r: GameState)
    ensures r.lastDistance == Some(d)
    ensures s.lastDistance.None? ==> r.direction == s.direction
    ensures s.lastDistance.Some? ==>
      && (r.direction == Approaching <==> d < s.lastDistance.value)
      && (r.direction == Retreating <==> d > s.lastDistance.value)
      && (r.direction == SameDistance <==> d == s.lastDistance.value)
    ensures r == s.(lastDistance := r.lastDistance, direction := r.direction)
  {
    s.(lastDistance := Some(d), direction := NextDirection(d, s.lastDistance, s.direction))
  }

  /** The distances a series of position updates reports for one target, in order. */
  function Readings(s: GameState, ds: seq<real>): (r: GameState)
    ensures |ds| > 0 ==> r.lastDistance == Some(ds[|ds| - 1])
    ensures r == s.(lastDistance := r.lastDistance, direction := r.direction)
    decreases |ds|
  {
    if |ds| == 0 then s else Readings(UpdateTargetDistance(s, ds[0]), ds[1..])
  }

  lemma {:induction false} NearingFrom(s: GameState, ds: seq<real>)
    requires |ds| > 0 && s.lastDistance.Some? && ds[0] < s.lastDistance.value
    requires forall k :: 0 < k < |ds| ==> ds[k] < ds[k - 1]
    ensures Readings(s, ds).direction == Approaching
    decreases |ds|
  {
    var s1 := UpdateTargetDistance(s, ds[0]);
    if |ds| == 1 {
      assert Readings(s1, ds[1..]) == s1;
    } else {
      var rest := ds[1..];
      assert rest[0] == ds[1] < ds[0];
      forall k | 0 < k < |rest|
        ensures rest[k] < rest[k - 1]
      {
        assert rest[k] == ds[k + 1] && rest[k - 1] == ds[k];
      }
      NearingFrom(s1, rest);
    }
  }

  /**
   * Walking straight towards the target: when two or more successive readings
   * each fall below the one before, the line reads "approaching" at the end,
   * whatever it showed and whatever distance was remembered before the first.
   */
  lemma {:induction false} NearingReadsApproaching(s: GameState, ds: seq<real>)
    requires |ds| >= 2
    requires forall k :: 0 < k < |ds| ==> ds[k] < ds[k - 1]
    ensures Readings(s, ds).direction == Approaching
  {
    var rest := ds[1..];
    forall k | 0 < k < |rest|
      ensures rest[k] < rest[k - 1]
    {
      assert rest[k] == ds[k + 1] && rest[k - 1] == ds[k];
    }
    NearingFrom(UpdateTargetDistance(s, ds[0]), rest);
  }

  /**
   * `completeMarker`: the target is recorded as completed if it is a real index
   * not recorded yet, and only then are the counters rewritten; the panel closes
   * and target and distance memory are cleared.
   */
  function CompleteMarker(s: GameState): (r: GameState)
    ensures s.completed <= r.completed
    ensures forall x: nat :: x in r.completed <==> x in s.completed || x == s.target
    ensures 0 <= s.target && s.target !in s.completed ==>
      r.completed == s.completed + [s.target] && r.counters == Some(UpdateStats(r))
    ensures s.target < 0 || s.target in s.completed ==>
      r.completed == s.completed && r.counters == s.counters
    ensures r.target == -1 && r.lastDistance == None && r.direction == NoReading && !r.panelOpen
    ensures r.markers == s.markers && r.quiz == s.quiz && r.status == s.status
    ensures Valid(s) ==> Valid(r)
    ensures TargetOpen(r)
    ensures CountersCurrent(s) ==> CountersCurrent(r)
  {
    var r := s.(completed := MarkComplete(s.completed, s.target), panelOpen := false,
                target := -1, lastDistance := None, direction := NoReading);
    if s.target >= 0 && s.target !in s.completed then r.(counters := Some(UpdateStats(r))) else r
  }

  /** A second completion changes nothing: the target is already cleared. */
  lemma CompleteMarkerIdempotent(s: GameState)
    ensures CompleteMarker(CompleteMarker(s)) == CompleteMarker(s)
  {
  }

  /** The answer buttons are a shuffled, complete answer list for `q`. */
  predicate IsAnswerSet(answers: seq<Answer>, q: Question)
  {
    && |answers| == 1 + |q.wrongAnswers|
    && multiset(Texts(answers)) == multiset([q.correctAnswer] + q.wrongAnswers)
    && ExactlyOneCorrect(answers, q.correctAnswer)
  }

  /**
   * `showQuestionPanel` for the target: a target with no questions is completed
   * at once; otherwise one of its questions is drawn, its answers are shuffled
   * into fresh buttons with nothing selected, and the panel opens.
   */
  function ShowQuestionPanel(s: GameState, draws: Draws): (r: GameState)
    requires 0 <= s.target < |s.markers|
    ensures var m := s.markers[s.target];
      |m.questions| == 0 ==> r == CompleteMarker(s)
    ensures var m := s.markers[s.target];
      |m.questions| > 0 ==>
        && r.panelOpen && r.status == Answering
        && r.quiz.Some? && r.quiz.value.question in m.questions
        && r.quiz.value.selected.None?
        && IsAnswerSet(r.quiz.value.answers, r.quiz.value.question)
        && r.completed == s.completed && r.target == s.target && r.markers == s.markers
        && r.lastDistance == s.lastDistance && r.direction == s.direction
        && r.counters == s.counters
    ensures Valid(s) ==> Valid(r)
    ensures TargetOpen(s) ==> TargetOpen(r)
    ensures CountersCurrent(s) ==> CountersCurrent(r)
  {
    var m := s.markers[s.target];
    if |m.questions| == 0 then
      CompleteMarker(s)
    else
      OpenPanel(s, m.questions[QuestionIndex(draws.question, |m.questions|)], draws.shuffle)
  }

  /** The panel shows question `q` with freshly shuffled buttons and no selection. */
  function OpenPanel(s: GameState, q: Question, shuffle: seq<nat>): (r: GameState)
    ensures r.quiz.Some? && r.quiz.value.question == q && r.quiz.value.selected.None?
    ensures IsAnswerSet(r.quiz.value.answers, q)
    ensures r == s.(quiz := r.quiz, panelOpen := true, status := Answering)
    ensures Valid(s) ==> Valid(r)
    ensures TargetOpen(s) ==> TargetOpen(r)
    ensures CountersCurrent(s) ==> CountersCurrent(r)
  {
    var r := s.(quiz := Some(QuizPanel(q, BuildAnswers(q, shuffle), None)),
                panelOpen := true, status := Answering);
    SameProgress(s, r);
    r
  }

  /** The invariants only read the markers, the progress, the target and the counters. */
  lemma SameProgress(s: GameState, r: GameState)
    requires r.markers == s.markers && r.completed == s.completed
    requires r.target == s.target && r.counters == s.counters
    ensures Valid(s) ==> Valid(r)
    ensures TargetOpen(s) ==> TargetOpen(r)
    ensures CountersCurrent(s) ==> CountersCurrent(r)
  {
  }

  /**
   * What reaching marker `t` at distance `d` does: a marker without questions is
   * completed (a no-op when it already was), and the target and the distance
   * memory are cleared; otherwise `t` stays the target, `d` is recorded as the
   * last distance with the trend it gives, and a fresh quiz on one of its
   * questions is open.
   */
  predicate Reached(s: GameState, r: GameState, t: int, d: real)
  {
    && 0 <= t < |s.markers|
    && r.markers == s.markers
    && (|s.markers[t].questions| == 0 ==>
          && r.completed == MarkComplete(s.completed, t)
          && r.target == -1 && r.lastDistance == None && r.direction == NoReading
          && !r.panelOpen)
    && (|s.markers[t].questions| > 0 ==>
          && r.completed == s.completed && r.target == t
          && r.lastDistance == Some(d) && r.direction == NextDirection(d, s.lastDistance, s.direction)
          && r.panelOpen && r.status == Answering
          && r.quiz.Some? && r.quiz.value.question in s.markers[t].questions
          && r.quiz.value.selected.None?
          && IsAnswerSet(r.quiz.value.answers, r.quiz.value.question))
  }

  /**
   * The second half of `findClosestMarker`, once marker `t` at distance `d` is to
   * be the target: it becomes the target (the marker and path are redrawn only
   * when it differs from the previous target, which the model does not show),
   * the distance is recorded, and within 30 metres the marker is reached.
   */
  function ApproachTarget(s: GameState, t: int, d: real, draws: Draws): (r: GameState)
    requires 0 <= t < |s.markers|
    ensures d > ProximityKm ==> r == UpdateTargetDistance(s.(target := t), d)
    ensures d <= ProximityKm ==> Reached(s, r, t, d)
    ensures r.markers == s.markers && s.completed <= r.completed
    ensures Valid(s) ==> Valid(r)
    ensures t !in s.completed ==> TargetOpen(r)
    ensures CountersCurrent(s) ==> CountersCurrent(r)
  {
    var s1 := Retarget(s, t, d);
    if d <= ProximityKm then ShowQuestionPanel(s1, draws) else s1
  }

  /** Marker `t` becomes the target and `d` its latest distance; progress is untouched. */
  function Retarget(s: GameState, t: int, d: real): (r: GameState)
    requires 0 <= t < |s.markers|
    ensures r == UpdateTargetDistance(s.(target := t), d)
    ensures r.target == t && r.markers == s.markers && r.completed == s.completed
    ensures r.counters == s.counters
    ensures Valid(s) ==> Valid(r)
    ensures t !in s.completed ==> TargetOpen(r)
    ensures CountersCurrent(s) ==> CountersCurrent(r)
  {
    UpdateTargetDistance(s.(target := t), d)
  }

  /**
   * `findClosestMarker`, run on every position update, as written. With no
   * markers nothing happens; with all markers completed only the status
   * changes. Otherwise the head `i` of the distance-sorted open markers is
   * found, and the target becomes the first marker `t` at the same coordinates
   * (`findIndex`), which is `i` itself or an earlier marker at the same place;
   * the distance and trend are updated with marker `i`'s distance, and within 30
   * metres marker `t` is reached; beyond that nothing else changes.
   */
  function FindClosestMarker(s: GameState, player: Coord, dist: DistanceFn, draws: Draws): (r: GameState)
    ensures |s.markers| == 0 ==> r == s
    ensures |s.markers| > 0 && AllCompleted(|s.markers|, s.completed) ==> r == s.(status := AllComplete)
    ensures |s.markers| > 0 ==>
      var ds := Distances(s.markers, player, dist);
      forall i: nat :: IsFirstClosest(ds, s.completed, i) ==>
        var t := IndexByCoords(s.markers, s.markers[i].pos);
        && 0 <= t <= i && s.markers[t].pos == s.markers[i].pos
        && (ds[i] > ProximityKm ==> r == UpdateTargetDistance(s.(target := t), ds[i]))
        && (ds[i] <= ProximityKm ==> Reached(s, r, t, ds[i]))
    ensures r.markers == s.markers && s.completed <= r.completed
    ensures Valid(s) ==> Valid(r)
    ensures CountersCurrent(s) ==> CountersCurrent(r)
  {
    if |s.markers| == 0 then s
    else
      var ds := Distances(s.markers, player, dist);
      match ResolveTarget(ds, s.completed)
      case None => s.(status := AllComplete)
      case Some(i) =>
        ApproachTarget(s, IndexByCoords(s.markers, s.markers[i].pos), ds[i], draws)
  }

  /**
   * The position update as evidently intended: the target is the head of the
   * sorted open markers itself, so it is never a completed marker.
   */
  function FindClosestMarkerCorrected(s: GameState, player: Coord, dist: DistanceFn, draws: Draws): (r: GameState)
    ensures |s.markers| == 0 ==> r == s
    ensures |s.markers| > 0 && AllCompleted(|s.markers|, s.completed) ==> r == s.(status := AllComplete)
    ensures |s.markers| > 0 ==>
      var ds := Distances(s.markers, player, dist);
      forall i: nat :: IsFirstClosest(ds, s.completed, i) ==>
        && (ds[i] > ProximityKm ==> r == UpdateTargetDistance(s.(target := i), ds[i]))
        && (ds[i] <= ProximityKm ==> Reached(s, r, i, ds[i]))
    ensures r.markers == s.markers && s.completed <= r.completed
    ensures Valid(s) ==> Valid(r)
    ensures TargetOpen(s) ==> TargetOpen(r)
    ensures CountersCurrent(s) ==> CountersCurrent(r)
  {
    if |s.markers| == 0 then s
    else
      var ds := Distances(s.markers, player, dist);
      match ResolveTarget(ds, s.completed)
      case None => s.(status := AllComplete)
      case Some(i) => ApproachTarget(s, i, ds[i], draws)
  }

  /** When no two markers share coordinates, the handler as written is the corrected one. */
  lemma FindAgreesWhenDistinct(s: GameState, player: Coord, dist: DistanceFn, draws: Draws)
    requires DistinctCoords(s.markers)
    ensures FindClosestMarker(s, player, dist, draws) == FindClosestMarkerCorrected(s, player, dist, draws)
  {
    if |s.markers| > 0 {
      var ds := Distances(s.markers, player, dist);
      AsWrittenAgreesWhenDistinct(s.markers, ds, s.completed);
    }
  }

  /**
   * Two markers at one place, the first completed: the update targets completed
   * marker 0 instead of open marker 1, and completing the target afterwards (as
   * a correct answer does) records nothing. Their titles and questions may differ.
   */
  lemma DuplicateCoordsTargetCompleted(s: GameState, player: Coord, dist: DistanceFn, draws: Draws)
    requires |s.markers| == 2 && s.markers[0].pos == s.markers[1].pos
    requires s.completed == [0] && |s.markers[0].questions| > 0
    ensures var r := FindClosestMarker(s, player, dist, draws);
      && r.target == 0 && r.completed == [0] && !TargetOpen(r)
      && CompleteMarker(r).completed == [0]
      && !AllCompleted(2, CompleteMarker(r).completed)
  {
    var ds := Distances(s.markers, player, dist);
    assert IsFirstClosest(ds, s.completed, 1);
    assert IndexByCoords(s.markers, s.markers[1].pos) == 0;
  }

  /**
   * `selectAnswer`: marks button `k` selected. The buttons themselves, and so
   * their order, are untouched, and a submit will grade button `k`.
   */
  function SelectAnswer(s: GameState, k: nat): (r: GameState)
    requires s.quiz.Some? && k < |s.quiz.value.answers|
    ensures r.quiz.Some? && r.quiz.value.answers == s.quiz.value.answers
    ensures r.quiz.value.question == s.quiz.value.question
    ensures Grade(r.quiz.value) == Some(s.quiz.value.answers[k].isCorrect)
    ensures r == s.(quiz := r.quiz)
  {
    s.(quiz := Some(s.quiz.value.(selected := Some(k))))
  }

  /**
   * `submitAnswer`: without a selected button nothing happens. A button flagged
   * correct completes the target; any other closes the panel and leaves the
   * progress, the target and the buttons, in their order, as they were.
   */
  function SubmitAnswer(s: GameState): (r: GameState)
    ensures s.quiz.None? || Grade(s.quiz.value).None? ==> r == s
    ensures s.quiz.Some? && Grade(s.quiz.value) == Some(true) ==>
      && r == CompleteMarker(s).(status := CorrectAnswer)
      && (s.target >= 0 ==> s.target in r.completed)
      && r.target == -1
    ensures s.quiz.Some? && Grade(s.quiz.value) == Some(false) ==>
      && r.completed == s.completed && r.target == s.target && r.quiz == s.quiz
      && r.lastDistance == s.lastDistance && !r.panelOpen && r.status == WrongAnswer
      && r.counters == s.counters
    ensures r.markers == s.markers && s.completed <= r.completed
    ensures Valid(s) ==> Valid(r)
    ensures TargetOpen(s) ==> TargetOpen(r)
    ensures CountersCurrent(s) ==> CountersCurrent(r)
  {
    match s.quiz
    case None => s
    case Some(panel) =>
      match Grade(panel)
      case None => s
      case Some(correct) =>
        if correct then CompleteMarker(s.(status := CorrectAnswer))
        else s.(status := WrongAnswer, panelOpen := false)
  }

  /** One thing that can happen to the page. */
  datatype Event =
    | FileLoaded(outcome: LoadOutcome)
    | Position(player: Coord, dist: DistanceFn, draws: Draws)
    | Click(button: nat)   // a click on answer button `button`
    | Submit

  /** A file load, if `e` is one, brings markers at distinct coordinates. */
  predicate LoadsDistinct(e: Event)
  {
    e.FileLoaded? && e.outcome.Parsed? && e.outcome.markers.Some? ==>
      DistinctCoords(e.outcome.markers.value)
  }

  /** The handler an event runs, as written. A click can only land on a rendered button. */
  function Step(s: GameState, e: Event): (r: GameState)
    ensures Valid(s) ==> Valid(r)
    ensures !e.FileLoaded? ==> r.markers == s.markers && s.completed <= r.completed
  {
    match e
    case FileLoaded(outcome) => Load(s, outcome)
    case Position(player, dist, draws) => FindClosestMarker(s, player, dist, draws)
    case Click(k) => if s.quiz.Some? && k < |s.quiz.value.answers| then SelectAnswer(s, k) else s
    case Submit => SubmitAnswer(s)
  }

  /** With markers at distinct coordinates, no handler targets a completed marker. */
  lemma StepKeepsTargetOpen(s: GameState, e: Event)
    requires TargetOpen(s) && DistinctCoords(s.markers) && LoadsDistinct(e)
    ensures TargetOpen(Step(s, e)) && DistinctCoords(Step(s, e).markers)
  {
    if e.Position? {
      FindAgreesWhenDistinct(s, e.player, e.dist, e.draws);
    }
  }

  /** The state after a series of events, as written. */
  function Run(s: GameState, events: seq<Event>): GameState
    decreases |events|
  {
    if |events| == 0 then s else Run(Step(s, events[0]), events[1..])
  }

  /**
   * Along any series of events from a valid state (such as the start page) the
   * state stays valid, so whenever markers are loaded the counters on the page
   * are the current counts: they add up to the number of markers and the
   * remaining count is the number of markers still open.
   */
  lemma {:induction false} RunKeepsValid(s: GameState, events: seq<Event>)
    requires Valid(s)
    ensures Valid(Run(s, events))
    ensures var r := Run(s, events);
      |r.markers| > 0 ==>
        && r.counters.Some?
        && r.counters.value.completed + r.counters.value.remaining == |r.markers|
        && r.counters.value.remaining == |AvailableIndices(|r.markers|, r.completed)|
    decreases |events|
  {
    if |events| > 0 {
      RunKeepsValid(Step(s, events[0]), events[1..]);
    } else {
      UpdateStatsCountsOpen(s);
    }
  }

  /**
   * As long as every file loaded has markers at distinct coordinates, the target
   * is never a completed marker.
   */
  lemma {:induction false} RunKeepsTargetOpen(s: GameState, events: seq<Event>)
    requires TargetOpen(s) && DistinctCoords(s.markers)
    requires forall j :: 0 <= j < |events| ==> LoadsDistinct(events[j])
    ensures TargetOpen(Run(s, events))
    decreases |events|
  {
    if |events| > 0 {
      StepKeepsTargetOpen(s, events[0]);
      RunKeepsTargetOpen(Step(s, events[0]), events[1..]);
    }
  }

  /**
   * Between file loads, progress is never lost: the markers stay the same and
   * the completed list only grows at its end.
   */
  lemma {:induction false} ProgressOnlyGrows(s: GameState, events: seq<Event>)
    requires forall j :: 0 <= j < |events| ==> !events[j].FileLoaded?
    ensures Run(s, events).markers == s.markers
    ensures s.completed <= Run(s, events).completed
    decreases |events|
  {
    if |events| > 0 {
      ProgressOnlyGrows(Step(s, events[0]), events[1..]);
    }
  }

  /**
   * The state the duplicate coordinates lead to: every marker but `b` is
   * completed, an earlier marker sits at `b`'s coordinates, and the target is
   * cleared or a completed marker.
   */
  predicate Trapped(s: GameState, b: nat)
  {
    && b < |s.markers| && b !in s.completed
    && (forall i: nat :: i < |s.markers| && i != b ==> i in s.completed)
    && (exists a :: 0 <= a < b && s.markers[a].pos == s.markers[b].pos)
    && (s.target == -1 || s.target in s.completed)
  }

  /**
   * From two markers at one place (their titles and questions may differ), none
   * completed: standing within 30 metres targets marker 0, and completing it (as
   * a correct answer does) leaves marker 1 trapped.
   */
  lemma ReachTrap(s: GameState, player: Coord, dist: DistanceFn, draws: Draws)
    requires |s.markers| == 2 && s.markers[0].pos == s.markers[1].pos && s.completed == []
    requires dist(player, s.markers[0].pos) <= ProximityKm
    ensures Trapped(CompleteMarker(FindClosestMarker(s, player, dist, draws)), 1)
  {
    var ds := Distances(s.markers, player, dist);
    assert IsFirstClosest(ds, [], 0);
    assert IndexByCoords(s.markers, s.markers[0].pos) == 0;
    var r := CompleteMarker(FindClosestMarker(s, player, dist, draws));
    assert r.markers == s.markers && r.completed == [0] && r.target == -1;
    assert r.markers[0].pos == r.markers[1].pos;
  }

  /**
   * A position update keeps the trap: the head of the open markers is `b`, and
   * the search by coordinates lands on an earlier, completed marker.
   */
  lemma PositionTrap(s: GameState, b: nat, player: Coord, dist: DistanceFn, draws: Draws)
    requires Trapped(s, b)
    ensures Trapped(FindClosestMarker(s, player, dist, draws), b)
    ensures FindClosestMarker(s, player, dist, draws).completed == s.completed
  {
    var ds := Distances(s.markers, player, dist);
    assert IsFirstClosest(ds, s.completed, b);
    var a :| 0 <= a < b && s.markers[a].pos == s.markers[b].pos;
    var t := IndexByCoords(s.markers, s.markers[b].pos);
    assert 0 <= t <= a;
    assert t in s.completed;
    var r := FindClosestMarker(s, player, dist, draws);
    if ds[b] <= ProximityKm {
      assert Reached(s, r, t, ds[b]);
    } else {
      assert r == UpdateTargetDistance(s.(target := t), ds[b]);
    }
  }

  /** No handler other than a file load gets out of the trap. */
  lemma StepTrap(s: GameState, b: nat, e: Event)
    requires Trapped(s, b) && !e.FileLoaded?
    ensures Trapped(Step(s, e), b)
    ensures Step(s, e).markers == s.markers && Step(s, e).completed == s.completed
  {
    if e.Position? {
      PositionTrap(s, b, e.player, e.dist, e.draws);
    }
  }

  /**
   * Once trapped, whatever happens short of loading another file, the progress
   * never changes again: marker `b` is never completed, and neither is the game.
   */
  lemma {:induction false} DuplicateTrapForever(s: GameState, b: nat, events: seq<Event>)
    requires Trapped(s, b)
    requires forall j :: 0 <= j < |events| ==> !events[j].FileLoaded?
    ensures Run(s, events).markers == s.markers
    ensures Run(s, events).completed == s.completed
    ensures b !in Run(s, events).completed
    ensures !AllCompleted(|Run(s, events).markers|, Run(s, events).completed)
    decreases |events|
  {
    if |events| > 0 {
      var s1 := Step(s, events[0]);
      StepTrap(s, b, events[0]);
      DuplicateTrapForever(s1, b, events[1..]);
      assert Run(s, events) == Run(s1, events[1..]);
    } else {
      assert !AllCompleted(|s.markers|, s.completed) by {
        assert b < |s.markers| && b !in s.completed;
      }
    }
  }

  /** The handler an event runs, with both corrections applied. */
  function StepCorrected(s: GameState, e: Event): (r: GameState)
    ensures Valid(s) ==> Valid(r)
    ensures TargetOpen(s) ==> TargetOpen(r)
    ensures CountersCurrent(s) ==> CountersCurrent(r)
    ensures e.FileLoaded? ==> r == LoadCorrected(s, e.outcome)
    ensures e.Position? ==> r == FindClosestMarkerCorrected(s, e.player, e.dist, e.draws)
    ensures e.Click? || e.Submit? ==> r == Step(s, e)
  {
    match e
    case FileLoaded(outcome) => LoadCorrected(s, outcome)
    case Position(player, dist, draws) => FindClosestMarkerCorrected(s, player, dist, draws)
    case _ => Step(s, e)
  }

  /** The state after a series of events, with both corrections applied. */
  function RunCorrected(s: GameState, events: seq<Event>): GameState
    decreases |events|
  {
    if |events| == 0 then s else RunCorrected(StepCorrected(s, events[0]), events[1..])
  }

  /**
   * With both corrections, along any series of events from the start page and
   * whatever the file contents, the target is never a completed marker and the
   * counters on the page, once written, always describe the current progress.
   */
  lemma {:induction false} RunCorrectedKeepsSound(s: GameState, events: seq<Event>)
    requires Valid(s) && TargetOpen(s) && CountersCurrent(s)
    ensures var r := RunCorrected(s, events);
      Valid(r) && TargetOpen(r) && CountersCurrent(r)
    decreases |events|
  {
    if |events| > 0 {
      RunCorrectedKeepsSound(StepCorrected(s, events[0]), events[1..]);
    }
  }
}

=== FILE: markers.dfy ===
/** The points of interest loaded from the game file, and distances to them. */
module Markers {

  /** A position in degrees. */
  datatype Coord = Coord(lat: real, lng: real)

  /** One quiz question attached to a point. */
  datatype Question = Question(prompt: string, correctAnswer: string, wrongAnswers: seq<string>)

  /**
   * A point of interest. Its identity is its position in the loaded list; a
   * missing `questions` list in the file reads as empty.
   */
  datatype Marker = Marker(title: string, pos: Coord, questions: seq<Question>)

  /** The great-circle distance in km (haversine in the game); kept abstract here. */
  type DistanceFn = (Coord, Coord) -> real

  /** The distance from the player to every marker, indexed like the markers. */
  function Distances(markers: seq<Marker>, player: Coord, dist: DistanceFn): (ds: seq<real>)
    ensures |ds| == |markers|
    ensures forall i :: 0 <= i < |markers| ==> ds[i] == dist(player, markers[i].pos)
  {
    seq(|markers|, i requires 0 <= i < |markers| => dist(player, markers[i].pos))
  }

  /** No two markers share both latitude and longitude. */
  predicate DistinctCoords(markers: seq<Marker>)
  {
    forall i, j :: 0 <= i < j < |markers| ==> markers[i].pos != markers[j].pos
  }
}

=== FILE: progress.dfy ===
/**
 * The completion bookkeeping of the game: the list `completedMarkers` of marker
 * indices, the markers still open, and the counters shown to the player.
 */
module Progress {

  /** No index is recorded twice. */
  predicate NoDuplicates(xs: seq<nat>)
  {
    forall i, j :: 0 <= i < j < |xs| ==> xs[i] != xs[j]
  }

  /** Every recorded index names one of the `n` loaded markers. */
  predicate AllBelow(xs: seq<nat>, n: nat)
  {
    forall i :: 0 <= i < |xs| ==> xs[i] < n
  }

  /** The distinct indices recorded in `xs`. */
  function Elements(xs: seq<nat>): set<nat>
  {
    set x | x in xs
  }

  /**
   * The push in `completeMarker`: the target is appended only when it is a real
   * index (not the -1 "no target" sentinel) and not recorded yet.
   */
  function MarkComplete(completed: seq<nat>, target: int): (r: seq<nat>)
    ensures completed <= r
    ensures forall x: nat :: x in r <==> x in completed || x == target
    ensures target < 0 || target in completed ==> r == completed
    ensures NoDuplicates(completed) ==> NoDuplicates(r)
  {
    if target >= 0 && target !in completed then completed + [target] else completed
  }

  /**
   * The indices below `n` that are not completed, in increasing order: the
   * `filter` over the marker list by index.
   */
  function AvailableIndices(n: nat, completed: seq<nat>): (r: seq<nat>)
    ensures forall p :: 0 <= p < |r| ==> r[p] < n && r[p] !in completed
    ensures forall i: nat :: i < n && i !in completed ==> i in r
    ensures forall p, q :: 0 <= p < q < |r| ==> r[p] < r[q]
  {
    if n == 0 then []
    else AvailableIndices(n - 1, completed) + (if n - 1 in completed then [] else [n - 1])
  }

  /** Every one of the `n` markers is completed. */
  predicate AllCompleted(n: nat, completed: seq<nat>)
  {
    forall i: nat :: i < n ==> i in completed
  }

  lemma {:induction false} DistinctElements(xs: seq<nat>)
    requires NoDuplicates(xs)
    ensures |Elements(xs)| == |xs|
  {
    if |xs| > 0 {
      var init := xs[..|xs| - 1];
      assert NoDuplicates(init);
      DistinctElements(init);
      assert xs == init + [xs[|xs| - 1]];
      assert Elements(xs) == Elements(init) + {xs[|xs| - 1]};
      assert xs[|xs| - 1] !in Elements(init);
    }
  }

  lemma {:induction false} NoneAvailable(n: nat, completed: seq<nat>)
    ensures AllCompleted(n, completed) ==> AvailableIndices(n, completed) == []
  {
    if n > 0 && AllCompleted(n, completed) {
      NoneAvailable(n - 1, completed);
    }
  }

  function CompletedBelow(n: nat, completed: seq<nat>): set<nat>
  {
    set x | x in completed && x < n
  }

  lemma {:induction false} AvailableCount(n: nat, completed: seq<nat>)
    ensures |AvailableIndices(n, completed)| + |CompletedBelow(n, completed)| == n
  {
    if n > 0 {
      AvailableCount(n - 1, completed);
      if n - 1 in completed {
        assert CompletedBelow(n, completed) == CompletedBelow(n - 1, completed) + {n - 1};
        assert n - 1 !in CompletedBelow(n - 1, completed);
      } else {
        assert CompletedBelow(n, completed) == CompletedBelow(n - 1, completed);
      }
    }
  }

  /**
   * The counters of `updateStats`: with no duplicate and no stray index, the
   * completed count plus the number of markers still open is the marker count,
   * so the remaining count `n - |completed|` is never negative and is exactly
   * what the target search still has to choose from.
   */
  lemma CountsAddUp(n: nat, completed: seq<nat>)
    requires NoDuplicates(completed) && AllBelow(completed, n)
    ensures |completed| + |AvailableIndices(n, completed)| == n
    ensures |completed| <= n
    ensures |completed| == n <==> AllCompleted(n, completed)
  {
    AvailableCount(n, completed);
    assert CompletedBelow(n, completed) == Elements(completed);
    DistinctElements(completed);
    var avail := AvailableIndices(n, completed);
    if !AllCompleted(n, completed) {
      var i: nat :| i < n && i !in completed;
      assert i in avail;
    }
    NoneAvailable(n, completed);
  }
}

=== FILE: quiz.dfy ===
/**
 * The quiz of `showQuestionPanel` and its grading: a question drawn at random,
 * the correct answer and all wrong answers in a random order, one flagged correct.
 */
module Quiz {

  import opened Wrappers
  import opened Markers

  /** One answer button: its text and its `data-correct` flag. */
  datatype Answer = Answer(text: string, isCorrect: bool)

  /** The rendered quiz: the question, the answer buttons, and the selected button. */
  datatype QuizPanel = QuizPanel(question: Question, answers: seq<Answer>, selected: Option<nat>)

  /** A value of `Math.random()`: a number in [0, 1). */
  type RandomDraw = r: real | 0.0 <= r < 1.0

  /**
   * `Math.floor(Math.random() * n)`: the question index for a draw in [0, 1).
   * It is always a valid index, and every index is drawn by some value.
   */
  function QuestionIndex(draw: RandomDraw, n: nat): (k: nat)
    requires n > 0
    ensures k < n
    ensures k as real <= draw * n as real < k as real + 1.0
  {
    assert 0.0 <= draw * n as real < n as real by {
      assert draw * n as real <= draw * n as real + (1.0 - draw) * n as real;
    }
    (draw * n as real).Floor
  }

  /** Every question can be drawn: the draw `k / n` selects question `k`. */
  lemma QuestionIndexReaches(k: nat, n: nat)
    requires k < n
    ensures 0.0 <= k as real / n as real < 1.0
    ensures QuestionIndex(k as real / n as real, n) == k
  {
  }

  /** The position chosen by the next random choice among `n` elements left. */
  function PickAt(picks: seq<nat>, n: nat): (k: nat)
    requires n > 0
    ensures k < n
  {
    var c := if |picks| == 0 then 0 else picks[0];
    if c < n then c else c % n
  }

  /** The random choices left after the next one. */
  function Later(picks: seq<nat>): seq<nat>
  {
    if |picks| == 0 then [] else picks[1..]
  }

  /** `xs` with the element at position `k` taken out. */
  function Without<T>(xs: seq<T>, k: nat): (r: seq<T>)
    requires k < |xs|
    ensures |r| == |xs| - 1
    ensures forall i :: 0 <= i < k ==> r[i] == xs[i]
    ensures forall i :: k <= i < |r| ==> r[i] == xs[i + 1]
    ensures multiset(r) == multiset(xs) - multiset{xs[k]}
  {
    assert xs == xs[..k] + [xs[k]] + xs[k + 1..];
    xs[..k] + xs[k + 1..]
  }

  /**
   * A random reordering, driven by the random choices `picks`: the next element is
   * taken from position `picks[0]` (modulo what is left) of the elements not taken
   * yet. It is a permutation of `xs`, and `ShuffleReaches` shows that every
   * permutation arises, so it stands for any outcome of the random sort.
   */
  function Shuffle<T>(xs: seq<T>, picks: seq<nat>): (r: seq<T>)
    ensures |r| == |xs|
    ensures multiset(r) == multiset(xs)
    decreases |xs|
  {
    if |xs| == 0 then []
    else
      var k := PickAt(picks, |xs|);
      [xs[k]] + Shuffle(Without(xs, k), Later(picks))
  }

  /** Every permutation of `xs` is the outcome of some random choices. */
  lemma {:induction false} ShuffleReaches<T>(xs: seq<T>, ys: seq<T>) returns (picks: seq<nat>)
    requires multiset(ys) == multiset(xs)
    ensures Shuffle(xs, picks) == ys
    decreases |xs|
  {
    assert |ys| == |multiset(ys)| == |multiset(xs)| == |xs|;
    if |xs| == 0 {
      picks := [];
    } else {
      assert ys[0] in multiset(xs);
      var k: nat :| k < |xs| && xs[k] == ys[0];
      assert ys == [ys[0]] + ys[1..];
      assert multiset(ys[1..]) == multiset(ys) - multiset{ys[0]};
      var tail := ShuffleReaches(Without(xs, k), ys[1..]);
      picks := [k] + tail;
      assert picks[0] == k;
      assert PickAt(picks, |xs|) == k;
      assert Later(picks) == tail;
    }
  }

  /** The texts of the answer buttons, in order. */
  function Texts(answers: seq<Answer>): (r: seq<string>)
    ensures |r| == |answers|
    ensures forall i :: 0 <= i < |answers| ==> r[i] == answers[i].text
  {
    seq(|answers|, i requires 0 <= i < |answers| => answers[i].text)
  }

  lemma TextsWithout(xs: seq<Answer>, k: nat)
    requires k < |xs|
    ensures Texts(Without(xs, k)) == Without(Texts(xs), k)
  {
  }

  lemma TextsCons(x: Answer, tail: seq<Answer>)
    ensures Texts([x] + tail) == [x.text] + Texts(tail)
  {
  }

  lemma {:induction false} ShuffleKeepsTexts(xs: seq<Answer>, picks: seq<nat>)
    ensures Texts(Shuffle(xs, picks)) == Shuffle(Texts(xs), picks)
    decreases |xs|
  {
    if |xs| > 0 {
      var k := PickAt(picks, |xs|);
      var ts := Texts(xs);
      ShuffleKeepsTexts(Without(xs, k), Later(picks));
      TextsWithout(xs, k);
      var tail := Shuffle(Without(xs, k), Later(picks));
      TextsCons(xs[k], tail);
    }
  }

  /** A value found at two positions occurs at least twice. */
  lemma TwoOccurrences<T>(s: seq<T>, i: nat, j: nat)
    requires i < j < |s| && s[i] == s[j]
    ensures multiset(s)[s[i]] >= 2
  {
    assert s == s[..i] + [s[i]] + s[i + 1..j] + [s[j]] + s[j + 1..];
  }

  /** The answer list before shuffling: the correct answer, then every wrong answer. */
  function AnswerList(q: Question): (r: seq<Answer>)
    ensures |r| == 1 + |q.wrongAnswers|
    ensures r[0] == Answer(q.correctAnswer, true)
    ensures forall i :: 0 <= i < |q.wrongAnswers| ==> r[i + 1] == Answer(q.wrongAnswers[i], false)
  {
    [Answer(q.correctAnswer, true)]
    + seq(|q.wrongAnswers|, i requires 0 <= i < |q.wrongAnswers| => Answer(q.wrongAnswers[i], false))
  }

  /** Exactly one answer is flagged correct, and it carries the correct text. */
  predicate ExactlyOneCorrect(answers: seq<Answer>, correct: string)
  {
    exists i :: 0 <= i < |answers| && answers[i] == Answer(correct, true)
      && forall j :: 0 <= j < |answers| && j != i ==> !answers[j].isCorrect
  }

  lemma OneCorrectSurvivesShuffle(q: Question, r: seq<Answer>)
    requires multiset(r) == multiset(AnswerList(q))
    ensures ExactlyOneCorrect(r, q.correctAnswer)
  {
    var u := AnswerList(q);
    var c := Answer(q.correctAnswer, true);
    var wrong := u[1..];
    assert u == [c] + wrong;
    assert c !in wrong;
    assert multiset(u)[c] == 1;
    assert c in multiset(r);
    var i :| 0 <= i < |r| && r[i] == c;
    forall j | 0 <= j < |r| && j != i
      ensures !r[j].isCorrect
    {
      if r[j].isCorrect {
        assert r[j] in multiset(u);
        assert r[j] == c;
        if i < j { TwoOccurrences(r, i, j); } else { TwoOccurrences(r, j, i); }
      }
    }
  }

  lemma AnswerListTexts(q: Question)
    ensures Texts(AnswerList(q)) == [q.correctAnswer] + q.wrongAnswers
  {
  }

  lemma WrongFlaggedAreWrong(q: Question, r: seq<Answer>)
    requires multiset(r) == multiset(AnswerList(q))
    ensures forall j :: 0 <= j < |r| && !r[j].isCorrect ==> r[j].text in q.wrongAnswers
  {
    var u := AnswerList(q);
    forall j | 0 <= j < |r| && !r[j].isCorrect
      ensures r[j].text in q.wrongAnswers
    {
      assert r[j] in multiset(u);
      var m :| 0 <= m < |u| && u[m] == r[j];
      assert q.wrongAnswers[m - 1] == r[j].text;
    }
  }

  /**
   * The answer buttons for question `q`: one per answer, a permutation of the
   * correct answer and all wrong answers, exactly one flagged correct.
   */
  function BuildAnswers(q: Question, picks: seq<nat>): (r: seq<Answer>)
    ensures |r| == 1 + |q.wrongAnswers|
    ensures multiset(Texts(r)) == multiset([q.correctAnswer] + q.wrongAnswers)
    ensures ExactlyOneCorrect(r, q.correctAnswer)
    ensures forall j :: 0 <= j < |r| && !r[j].isCorrect ==> r[j].text in q.wrongAnswers
  {
    var u := AnswerList(q);
    var r := Shuffle(u, picks);
    ShuffleKeepsTexts(u, picks);
    AnswerListTexts(q);
    OneCorrectSurvivesShuffle(q, r);
    WrongFlaggedAreWrong(q, r);
    r
  }

  /** Every order of the answer buttons is possible. */
  lemma AnyOrderPossible(q: Question, order: seq<Answer>)
    requires multiset(order) == multiset(AnswerList(q))
    ensures exists picks :: BuildAnswers(q, picks) == order
  {
    var picks := ShuffleReaches(AnswerList(q), order);
    assert BuildAnswers(q, picks) == order;
  }

  /**
   * The grade of `submitAnswer`: nothing without a selection, otherwise the
   * selected button's flag.
   */
  function Grade(panel: QuizPanel): (g: Option<bool>)
    ensures g.None? <==> panel.selected.None? || panel.selected.value >= |panel.answers|
    ensures g == Some(true) ==> panel.answers[panel.selected.value].isCorrect
    ensures g == Some(false) ==> !panel.answers[panel.selected.value].isCorrect
  {
    match panel.selected
    case None => None
    case Some(k) => if k < |panel.answers| then Some(panel.answers[k].isCorrect) else None
  }

  /**
   * On a freshly built quiz, a selection grades correct exactly when it is the
   * button carrying the correct answer with the correct flag, and that button is unique.
   */
  lemma GradeOfBuiltQuiz(q: Question, picks: seq<nat>, k: nat)
    requires k < |BuildAnswers(q, picks)|
    ensures var answers := BuildAnswers(q, picks);
      Grade(QuizPanel(q, answers, Some(k))) == Some(true) <==> answers[k] == Answer(q.correctAnswer, true)
    ensures var answers := BuildAnswers(q, picks);
      Grade(QuizPanel(q, answers, Some(k))) == Some(true) ==>
        forall j :: 0 <= j < |answers| && j != k ==> !answers[j].isCorrect
  {
  }
}

=== FILE: resolver.dfy ===
/**
 * Target resolution of `findClosestMarker`: drop the completed markers, order the
 * rest by distance and take the head, then recover the head's index.
 */
module Resolver {

  import opened Wrappers
  import opened Markers
  import opened Progress

  /**
   * Marker `i` is the head of the distance-sorted list of open markers: it is open,
   * no farther than any open marker, and strictly nearer than every open marker
   * listed before it (the sort is stable, so on a tie the earlier index wins).
   */
  predicate IsFirstClosest(ds: seq<real>, completed: seq<nat>, i: nat)
  {
    && i < |ds|
    && i !in completed
    && (forall j: nat :: j < |ds| && j !in completed ==> ds[i] <= ds[j])
    && (forall j: nat :: j < i && j !in completed ==> ds[i] < ds[j])
  }

  /** The position in `avail` of its first element of least distance. */
  function ClosestPos(avail: seq<nat>, ds: seq<real>): (k: nat)
    requires |avail| > 0
    requires forall p :: 0 <= p < |avail| ==> avail[p] < |ds|
    ensures k < |avail|
    ensures forall p :: 0 <= p < |avail| ==> ds[avail[k]] <= ds[avail[p]]
    ensures forall p :: 0 <= p < k ==> ds[avail[k]] < ds[avail[p]]
    decreases |avail|
  {
    if |avail| == 1 then 0
    else
      var k0 := ClosestPos(avail[..|avail| - 1], ds);
      if ds[avail[|avail| - 1]] < ds[avail[k0]] then |avail| - 1 else k0
  }

  /** The first least element of the filtered, increasing list is the head of the sort. */
  lemma ClosestIsFirstClosest(ds: seq<real>, completed: seq<nat>, avail: seq<nat>, k: nat)
    requires forall p :: 0 <= p < |avail| ==> avail[p] < |ds| && avail[p] !in completed
    requires forall i: nat :: i < |ds| && i !in completed ==> i in avail
    requires forall p, q :: 0 <= p < q < |avail| ==> avail[p] < avail[q]
    requires k < |avail|
    requires forall p :: 0 <= p < |avail| ==> ds[avail[k]] <= ds[avail[p]]
    requires forall p :: 0 <= p < k ==> ds[avail[k]] < ds[avail[p]]
    ensures IsFirstClosest(ds, completed, avail[k])
    ensures forall i: nat :: IsFirstClosest(ds, completed, i) ==> i == avail[k]
  {
  }

  /**
   * The corrected resolution: the index of the head of the sorted open markers,
   * taken from the filter itself. None exactly when every marker is completed.
   */
  function ResolveTarget(ds: seq<real>, completed: seq<nat>): (r: Option<nat>)
    ensures r.None? <==> AllCompleted(|ds|, completed)
    ensures forall i: nat :: r == Some(i) <==> IsFirstClosest(ds, completed, i)
  {
    var avail := AvailableIndices(|ds|, completed);
    if |avail| == 0 then
      None
    else
      var k := ClosestPos(avail, ds);
      ClosestIsFirstClosest(ds, completed, avail, k);
      NoneAvailable(|ds|, completed);
      Some(avail[k])
  }

  /** `findIndex` on latitude and longitude: the first marker placed at `c`, or -1. */
  function IndexByCoords(markers: seq<Marker>, c: Coord): (r: int)
    ensures -1 <= r < |markers|
    ensures r == -1 <==> forall j :: 0 <= j < |markers| ==> markers[j].pos != c
    ensures r >= 0 ==> markers[r].pos == c && forall j :: 0 <= j < r ==> markers[j].pos != c
  {
    if |markers| == 0 then -1
    else if markers[0].pos.lat == c.lat && markers[0].pos.lng == c.lng then 0
    else
      var r := IndexByCoords(markers[1..], c);
      if r == -1 then -1 else r + 1
  }

  /**
   * The resolution as the game writes it: the head of the sorted open markers is
   * found, then its index is recovered by searching the whole list for its
   * coordinates. The recovered index is never after the true one and names a
   * marker at the same place, but it may name an earlier, completed marker.
   */
  function ResolveAsWritten(markers: seq<Marker>, ds: seq<real>, completed: seq<nat>): (r: Option<int>)
    requires |ds| == |markers|
    ensures r.None? <==> AllCompleted(|markers|, completed)
    ensures r.Some? ==>
      var t := ResolveTarget(ds, completed).value;
      && 0 <= r.value <= t && markers[r.value].pos == markers[t].pos
      && forall j :: 0 <= j < r.value ==> markers[j].pos != markers[t].pos
  {
    match ResolveTarget(ds, completed)
    case None => None
    case Some(t) => Some(IndexByCoords(markers, markers[t].pos))
  }

  /** With distinct coordinates the recovery by coordinates finds the true index. */
  lemma AsWrittenAgreesWhenDistinct(markers: seq<Marker>, ds: seq<real>, completed: seq<nat>)
    requires |ds| == |markers| && DistinctCoords(markers)
    ensures ResolveTarget(ds, completed).Some? ==>
      ResolveAsWritten(markers, ds, completed) == Some(ResolveTarget(ds, completed).value as int)
  {
    if ResolveTarget(ds, completed).Some? {
      var t := ResolveTarget(ds, completed).value;
      var r := ResolveAsWritten(markers, ds, completed).value;
      assert markers[r].pos == markers[t].pos;
    }
  }

  /**
   * Two markers at one place (their titles and questions may differ), the first
   * completed: the head of the open markers is marker 1, but the recovery by
   * coordinates lands on completed marker 0, so the completion that follows
   * records nothing.
   */
  lemma DuplicateCoordsRetargetCompleted(m0: Marker, m1: Marker, player: Coord, dist: DistanceFn)
    requires m0.pos == m1.pos
    ensures var ms := [m0, m1];
      var ds := Distances(ms, player, dist);
      && ResolveTarget(ds, [0]) == Some(1)
      && ResolveAsWritten(ms, ds, [0]) == Some(0)
      && MarkComplete([0], 0) == [0]
      && !AllCompleted(2, [0])
  {
  }
}

=== FILE: trend.dfy ===
/** The approach/retreat feedback of `updateTargetDistance`. */
module Trend {

  import opened Wrappers

  /** The `distanceDirection` line: "-" until a comparison is made, then a verdict. */
  datatype Direction = NoReading | Approaching | Retreating | SameDistance

  /**
   * The feedback after measuring distance `d` to the target. With no previous
   * measurement the line keeps what it showed; otherwise it says whether `d` is
   * below, above or equal to the previous measurement.
   */
  function NextDirection(d: real, last: Option<real>, shown: Direction): (r: Direction)
    ensures last.None? ==> r == shown
    ensures last.Some? ==> (r == Approaching <==> d < last.value)
    ensures last.Some? ==> (r == Retreating <==> d > last.value)
    ensures last.Some? ==> (r == SameDistance <==> d == last.value)
  {
    match last
    case None => shown
    case Some(prev) =>
      if d < prev then Approaching
      else if d > prev then Retreating
      else SameDistance
  }
}

=== FILE: walkthrough.dfy ===
/**
 * A two-marker game played through the handlers: reaching the first marker
 * opens its quiz, a wrong answer keeps it the target, a correct answer on the
 * next visit completes it, and the next position update targets the second.
 */
module Walkthrough {

  import opened Wrappers
  import opened Markers
  import Progress
  import opened Quiz
  import opened Game

  const Ask := Question("Which tower?", "The old one", ["The new one"])
  const First := Marker("First", Coord(0.0, 0.0), [Ask])
  const Second := Marker("Second", Coord(1.0, 1.0), [Ask])

  /** A distance of 0 km at the marker's own coordinates and 1 km anywhere else. */
  const Flat: DistanceFn := (p: Coord, c: Coord) => if p == c then 0.0 else 1.0

  /** No shuffle choices: the correct answer stays on the first button. */
  const Plain := Draws(0.0, [])

  /** With no shuffle choices the correct answer is on the first button. */
  lemma PlainOrder()
    ensures BuildAnswers(Ask, []) == [Answer("The old one", true), Answer("The new one", false)]
  {
    var u := AnswerList(Ask);
    assert u == [Answer("The old one", true), Answer("The new one", false)];
    assert PickAt([], 2) == 0 && PickAt([], 1) == 0 && Later([]) == [];
    assert Without(u, 0) == [u[1]];
    assert Without([u[1]], 0) == [];
    assert Shuffle([u[1]], []) == [u[1]];
    assert Shuffle(u, []) == [u[0]] + Shuffle([u[1]], []);
  }

  /** Standing on the first, still open marker opens its quiz. */
  lemma ReachFirst(s: GameState)
    requires s.markers == [First, Second] && s.completed == []
    ensures var r := FindClosestMarker(s, First.pos, Flat, Plain);
      && r.markers == s.markers && r.completed == [] && r.target == 0 && r.panelOpen
      && r.quiz == Some(QuizPanel(Ask, BuildAnswers(Ask, []), None))
  {
    var ds := Distances(s.markers, First.pos, Flat);
    assert ds == [0.0, 1.0];
    assert Resolver.IsFirstClosest(ds, [], 0);
    assert QuestionIndex(0.0, 1) == 0;
  }

  /** Once the first marker is completed, standing on it targets the second, 1 km away. */
  lemma MoveOnToSecond(s: GameState)
    requires s.markers == [First, Second] && s.completed == [0]
    ensures var r := FindClosestMarker(s, First.pos, Flat, Plain);
      r.target == 1 && r.completed == [0] && r.panelOpen == s.panelOpen
  {
    var ds := Distances(s.markers, First.pos, Flat);
    assert ds == [0.0, 1.0];
    assert Resolver.IsFirstClosest(ds, [0], 1);
  }

  /** The quiz on the first marker as the plain draws render it. */
  const FirstQuiz := QuizPanel(Ask, [Answer("The old one", true), Answer("The new one", false)], None)

  /** Picking the wrong button keeps the first marker the target, with nothing completed. */
  lemma AnswerWrong(s: GameState)
    requires s.markers == [First, Second] && s.completed == [] && s.target == 0
    requires s.quiz == Some(FirstQuiz)
    ensures var r := SubmitAnswer(SelectAnswer(s, 1));
      && r.markers == s.markers && r.completed == [] && r.target == 0
      && r.status == WrongAnswer && !r.panelOpen
  {
  }

  /** Picking the right button completes the first marker. */
  lemma AnswerRight(s: GameState)
    requires s.markers == [First, Second] && s.completed == [] && s.target == 0
    requires s.quiz == Some(FirstQuiz)
    ensures var r := SubmitAnswer(SelectAnswer(s, 0));
      && r.markers == s.markers && r.completed == [0] && r.target == -1
      && r.status == CorrectAnswer
  {
    assert Progress.MarkComplete([], 0) == [0];
  }

  /**
   * First visit to the first marker, from any state with the two markers and
   * nothing completed (such as the one a file load leaves): its quiz opens, and
   * a wrong answer closes it with the marker still the target and nothing completed.
   */
  lemma FirstVisitWrongAnswer(s0: GameState)
    requires s0.markers == [First, Second] && s0.completed == []
    ensures var s1 := FindClosestMarker(s0, First.pos, Flat, Plain);
      && s1.target == 0 && s1.panelOpen && s1.quiz == Some(FirstQuiz)
      && var s2 := SubmitAnswer(SelectAnswer(s1, 1));
      && s2.markers == [First, Second] && s2.completed == [] && s2.target == 0
      && s2.status == WrongAnswer && !s2.panelOpen
  {
    PlainOrder();
    ReachFirst(s0);
    AnswerWrong(FindClosestMarker(s0, First.pos, Flat, Plain));
  }

  /**
   * The next visit after a wrong answer: the quiz reopens, a correct answer
   * completes the first marker (counters 1 completed, 1 remaining), and the next
   * position update targets the second marker.
   */
  lemma NextVisitRightAnswer(s2: GameState)
    requires s2.markers == [First, Second] && s2.completed == []
    ensures var s3 := FindClosestMarker(s2, First.pos, Flat, Plain);
      && s3.target == 0 && s3.panelOpen && s3.quiz == Some(FirstQuiz)
      && var s4 := SubmitAnswer(SelectAnswer(s3, 0));
      && s4.completed == [0] && s4.target == -1 && s4.status == CorrectAnswer
      && s4.counters == Some(Counts(1, 1))
      && FindClosestMarker(s4, First.pos, Flat, Plain).target == 1
  {
    PlainOrder();
    ReachFirst(s2);
    var s3 := FindClosestMarker(s2, First.pos, Flat, Plain);
    AnswerRight(s3);
    MoveOnToSecond(SubmitAnswer(SelectAnswer(s3, 0)));
  }
}

=== FILE: wrappers.dfy ===
/** Optional values, standing in for the `null` the game uses for "not yet known". */
module Wrappers {

  datatype Option<+T> = None | Some(value: T)
}
